=== FILE: README.md ===
# Early allocator of the bump_allocator module, in Dafny

This project models `EarlyAllocator<PAGE_SIZE>` from
`arceos/modules/bump_allocator/src/lib.rs`. It is the allocator a kernel uses
at boot, before the real byte allocator and page allocator are ready. It owns
one span `[start, end)` and serves requests from both ends:

    [ bytes-used | avail-area | pages-used ]
    |            | -->    <-- |            |
    start       b_pos        p_pos       end

- Byte allocations move the cursor `b_pos` forward from `start`.
- Page allocations move the cursor `p_pos` backward from `end`.
- `count` is the number of live byte allocations. When it drops to zero, the
  whole byte area is reclaimed.
- Pages are never freed.

In the source, the struct holds only `start`, `end` and `pagesize`. `new`,
`init`, `add_memory` and `dealloc_pages` do what the model does. The bodies
of `alloc`, `dealloc`, `alloc_pages` and the six statistics are placeholders:
- `alloc` returns a dangling pointer.
- `dealloc` does nothing.
- `alloc_pages` returns 0.
- Every statistic returns 0.

The doc comment at lib.rs:8-20 describes the intended design. It names the
cursors `b_pos` and `p_pos` and the counter `count`. The model adds those
fields and implements that documented design. It also models the
placeholder bodies as written, and shows where they break the design (see
"Findings").

Files and modules:

- `alloc_result.dfy`, module `AllocResult`. The result type the allocator
  interfaces return, and the two failures the allocator reports:
  - `NoMemory`: the two areas would collide.
  - `NotAllocated`: a byte release with nothing live.
- `align.dfy`, module `Align`. Powers of two, alignment, rounding up and
  down, and whole-page counts, with the arithmetic lemmas behind them.
- `bump_allocator.dfy`, module `BumpAllocator`. The state
  `EarlyAllocator(start, end, bPos, pPos, count, pageSize)`, its invariant
  `Valid()`, and every operation, written as a pure function. Each operation
  returns a `Step`: the value the interface returns, plus the state after the
  call.
- `reclaim.dfy`, module `Reclaim`. Runs of byte requests and releases, and
  the bulk-reclaim round trip.
- `ledger.dfy`, module `Ledger`. Records every region handed out over any run
  of byte, page and `add_memory` calls after a single `init`, and proves that
  none of them overlap.
- `scenarios.dfy`, module `Scenarios`. Concrete call sequences with 4 KiB
  pages, each stated as a lemma.
- `skeleton.dfy`, module `Skeleton`. The placeholder bodies as written, with
  an input on which each one breaks the design.

Each operation's contract describes its result independently of its body:
- A byte request succeeds exactly when some aligned place in the gap fits it.
  The address it returns is the lowest such place.
- A page request succeeds exactly when some place below `p_pos` fits the
  pages. That place must be aligned to both `align_pow2` and the page size,
  and must sit at or above `b_pos`. The address returned is the highest such
  place.
- On failure, the state is unchanged.

## Model

| member | source | states |
|---|---|---|
| `BumpAllocator.New` | arceos/modules/bump_allocator/src/lib.rs:29-36 | The new allocator covers the empty span at address 0 and has the type's page size. It satisfies the layout invariant and holds no allocation. |
| `BumpAllocator.Init` | arceos/modules/bump_allocator/src/lib.rs:40-44 | The span becomes `[start, start + size)`. Both areas are empty (`b_pos == start`, `p_pos == end`, `count == 0`), so the invariant holds. |
| `BumpAllocator.AddMemory` | arceos/modules/bump_allocator/src/lib.rs:46-49 | Always succeeds and changes nothing. |
| `BumpAllocator.Alloc` | arceos/modules/bump_allocator/src/lib.rs:53-59 | Implements the forward byte path of lib.rs:11 and 14-16. It succeeds iff some `align`-aligned `x >= b_pos` has `x + size <= p_pos`. On success it returns the least such `x`, sets `b_pos` to `x + size`, raises `count` by one and changes nothing else. Otherwise it returns `NoMemory` and the state is unchanged. The invariant is kept. |
| `BumpAllocator.Dealloc` | arceos/modules/bump_allocator/src/lib.rs:61-67 | Implements the counted release of lib.rs:18-19. It succeeds iff `count > 0`, lowering `count` by one. When `count` reaches zero, `b_pos` returns to exactly `start`. Otherwise `b_pos` stays, and no other field moves. A release with nothing live returns `NotAllocated` and leaves the state unchanged. |
| `BumpAllocator.TotalBytes` | arceos/modules/bump_allocator/src/lib.rs:69-72 | Total bytes are the used bytes plus the available bytes, so the byte area's ceiling is `p_pos`. |
| `BumpAllocator.UsedBytes` | arceos/modules/bump_allocator/src/lib.rs:74-77 | Equals `b_pos - start`, and is zero whenever no byte allocation is live. |
| `BumpAllocator.AvailableBytes` | arceos/modules/bump_allocator/src/lib.rs:79-82 | The largest byte request without alignment that succeeds: a request of this size succeeds and one byte more fails. No successful request is larger. |
| `BumpAllocator.AllocPages` | arceos/modules/bump_allocator/src/lib.rs:87-94 | Implements the backward page path of lib.rs:12 and 14-16. It succeeds iff some `y >= b_pos` is a multiple of both `align_pow2` and the page size, with `y + num_pages * PAGE_SIZE <= p_pos`. On success it returns the greatest such `y` and sets `p_pos` to it, changing nothing else. Otherwise it returns `NoMemory` and the state is unchanged. The invariant is kept, including its clause that `p_pos` is a multiple of `PAGE_SIZE` once it has left `end`. |
| `BumpAllocator.DeallocPages` | arceos/modules/bump_allocator/src/lib.rs:96-98 | Pages are never freed (lib.rs:20): the state is left exactly as it was. |
| `BumpAllocator.TotalPages` | arceos/modules/bump_allocator/src/lib.rs:100-103 | The whole pages in `[b_pos, end)`. This is the used pages plus the available pages, plus at most one page split across `p_pos`. |
| `BumpAllocator.UsedPages` | arceos/modules/bump_allocator/src/lib.rs:105-108 | The whole pages in `[p_pos, end)`, that is `(end - p_pos) / PAGE_SIZE`. |
| `BumpAllocator.AvailablePages` | arceos/modules/bump_allocator/src/lib.rs:110-113 | The whole pages in `[b_pos, p_pos)`. No page request for more pages has a place. |
| `BumpAllocator.InitStatistics` | arceos/modules/bump_allocator/src/lib.rs:40-44 | Right after `init`, nothing is used. The whole `size` is available and is the byte total, and `size / PAGE_SIZE` pages are available. |
| `BumpAllocator.AllocAccounting` | arceos/modules/bump_allocator/src/lib.rs:69-82 | A successful byte request adds its size, plus padding smaller than its alignment, to the used bytes. It takes the same amount from the available bytes. The byte total and the used pages do not move. |
| `BumpAllocator.AllocPagesAccounting` | arceos/modules/bump_allocator/src/lib.rs:100-113 | A successful page request adds at least `num_pages` to the used pages. It takes at least `num_pages * PAGE_SIZE` from the available bytes and leaves the used bytes unchanged. |
| `Reclaim.AllocEach` | arceos/modules/bump_allocator/src/lib.rs:11-16 | A run of byte requests that all succeed places each layout aligned. Every region lies between the old and the new `b_pos`, each ends before the next begins, and `count` grows by the run's length. The span and the page area do not move. |
| `Reclaim.DeallocEach` | arceos/modules/bump_allocator/src/lib.rs:18-19 | A run of releases succeeds iff it is no longer than `count`, and lowers `count` by its length. `b_pos` moves only when `count` reaches zero. |
| `Reclaim.ReleaseAllResets` | arceos/modules/bump_allocator/src/lib.rs:18-19 | Releasing exactly the live byte allocations always succeeds. It leaves `b_pos == start` and `count == 0`, and nothing else changes. |
| `Reclaim.BulkReclaim` | arceos/modules/bump_allocator/src/lib.rs:18-19 | Start with an empty byte area and allocate a run of byte requests. If every request succeeds, releasing as many returns the allocator to exactly the state it started in, so the next request is placed as if the run had never happened. |
| `Ledger.Apply` | arceos/modules/bump_allocator/src/lib.rs:14-16 | Performs one byte, page or `add_memory` call. The region a successful byte or page request hands out is appended to the byte or page list, and a failed request records nothing. Every call keeps the recorded byte regions inside `[start, b_pos)` and the page regions inside `[p_pos, end)`, each list pairwise disjoint. Page regions are only ever added, the span is fixed, and `p_pos` never rises. |
| `Ledger.Run` | arceos/modules/bump_allocator/src/lib.rs:14-20 | The same holds over any run of byte, page and `add_memory` calls: the regions stay inside their areas and disjoint, and no page region is ever dropped. |
| `Ledger.BytesMissPages` | arceos/modules/bump_allocator/src/lib.rs:14-16 | No byte region overlaps a page region. |
| `Ledger.NoOverlap` | arceos/modules/bump_allocator/src/lib.rs:14-16 | After a single `init` and any run of byte, page and `add_memory` calls, every region still handed out lies inside the span and no two of them overlap. |
| `Scenarios.MixedRequests` | arceos/modules/bump_allocator/src/lib.rs:8-16 | Over `[0x1000, 0x4000)`, `alloc(64, 8)` returns 0x1000 and `alloc(32, 16)` returns 0x1040. `alloc_pages(1, 0x1000)` returns 0x3000, and a further `alloc_pages(2, 0x1000)` fails with `NoMemory`. |
| `Scenarios.PagesUntilCollision` | arceos/modules/bump_allocator/src/lib.rs:12-16 | Over `[0x1000, 0x3000)`, single pages come at 0x2000 and then at 0x1000, where `p_pos` meets `b_pos`. The next request fails and changes nothing. |
| `Scenarios.TwoByteRequests` | arceos/modules/bump_allocator/src/lib.rs:11-16 | Two byte requests in a row land at 0x1000 and 0x1040. |
| `Scenarios.ReuseAfterReclaim` | arceos/modules/bump_allocator/src/lib.rs:18-19 | Releasing both reclaims the byte area, so the next request is placed at `start`. One release too many is reported. |
| `Scenarios.BeforeInit` | arceos/modules/bump_allocator/src/lib.rs:29-36 | On the allocator as constructed, before `init`, a request of 8 bytes fails with `NoMemory` and leaves the state unchanged. A request of 0 bytes succeeds at address 0. |
| `Scenarios.SecondInitReissuesPages` | arceos/modules/bump_allocator/src/lib.rs:40-44 | After `init(0x1000, 0x3000)`, `alloc_pages(1, 0x1000)` returns 0x3000. After a second `init` with the same arguments, the same request returns 0x3000 again, although pages are never freed (lib.rs:20). |
| `Scenarios.InitRebinds` | arceos/modules/bump_allocator/src/lib.rs:40-44 | A second `init` rebinds the span and forgets all earlier state. |
| `Skeleton.WrittenAlloc` | arceos/modules/bump_allocator/src/lib.rs:53-59 | As written, `alloc` always succeeds with address 1 and moves no cursor. |
| `Skeleton.WrittenAllocPages` | arceos/modules/bump_allocator/src/lib.rs:87-94 | As written, `alloc_pages` always succeeds with address 0 and moves no cursor. |
| `Skeleton.WrittenUsedBytes` | arceos/modules/bump_allocator/src/lib.rs:74-77 | As written, `used_bytes` is 0. |
| `Skeleton.WrittenAllocOverlaps` | arceos/modules/bump_allocator/src/lib.rs:58 | After `init(0x1000, 0x3000)`, the written `alloc(64, 8)` returns 1 twice. That address is misaligned, outside the span, and handed out twice. The modelled `Alloc` returns 0x1000. |
| `Skeleton.WrittenAllocPagesEscapes` | arceos/modules/bump_allocator/src/lib.rs:93 | After `init(0x1000, 0x3000)`, the written `alloc_pages(1, 0x1000)` returns 0, which is below `b_pos` and outside the span. The modelled `AllocPages` returns 0x3000. |
| `Skeleton.WrittenUsedBytesStale` | arceos/modules/bump_allocator/src/lib.rs:76 | After a 64-byte request, the written `used_bytes` still reports 0, while the modelled `UsedBytes` reports 64. |

## Findings

| source | as written | input that shows it | evidently intended | confidence | as-written member | corrected member |
|---|---|---|---|---|---|---|
| arceos/modules/bump_allocator/src/lib.rs:58 | `alloc` returns `NonNull::dangling()` (address 1) for every layout and moves no cursor | `init(0x1000, 0x3000)`, then `alloc(size 64, align 8)` twice: both calls return 1, which is outside the span, not 8-aligned, and the same region twice | the lowest `align`-aligned address at or above `b_pos` (here 0x1000), with `b_pos` moved past the allocation | high (placeholder body); not executed | `Skeleton.WrittenAlloc`, shown by `Skeleton.WrittenAllocOverlaps` | `BumpAllocator.Alloc` |
| arceos/modules/bump_allocator/src/lib.rs:93 | `alloc_pages` returns 0 for every request and moves no cursor | `init(0x1000, 0x3000)`, then `alloc_pages(1, 0x1000)`: returns 0, below `b_pos` and outside the span | the highest page- and `align_pow2`-aligned block below `p_pos` that stays above `b_pos` (here 0x3000) | high (placeholder body); not executed | `Skeleton.WrittenAllocPages`, shown by `Skeleton.WrittenAllocPagesEscapes` | `BumpAllocator.AllocPages` |
| arceos/modules/bump_allocator/src/lib.rs:76 | `used_bytes` (like every other statistic) returns 0 | `init(0x1000, 0x3000)`, `alloc(64, 8)`, then `used_bytes()`: returns 0 | `b_pos - start`, here 64 | high (placeholder body); not executed | `Skeleton.WrittenUsedBytes`, shown by `Skeleton.WrittenUsedBytesStale` | `BumpAllocator.UsedBytes` |

## Left out

- Logging (`info!`, `debug!`) is left out: it is output only and does not touch the state.
- `NonNull` and `Layout` internals are left out. Addresses are naturals. A layout is a `(size, align)` pair, and its power-of-two alignment is a precondition, because `Layout` guarantees it by construction.
- Rounding uses `%` rather than the bit masks a Rust implementation would use. The two agree for power-of-two alignments.
- `PAGE_SIZE` is a field fixed at construction, not a const generic. It is assumed to be a power of two, as every page size is.
- `BumpAllocator.AllocPages`: `align_pow2` is taken to be a power of two, as its name says. The model makes this a precondition and does not model what the call does for other values.
- `BumpAllocator.Valid`: `p_pos` is required to be a multiple of `PAGE_SIZE` only once it has left `end`. `init` sets `p_pos` to `end`, which need not be page aligned.
- `BumpAllocator.Alloc`: an allocator that was never initialised is not told apart from a full one. As constructed, it is a valid empty span at address 0, so a request before `init` fails with the same `NoMemory` a collision gives (`Scenarios.BeforeInit`). The model's two failures have no "uninitialised" variant.
- `BumpAllocator.Alloc`: a zero-size request can succeed at address 0, both before `init` and after `init(0, size)` (`Scenarios.BeforeInit`). The source returns a `NonNull<u8>`, which cannot hold a null address, so the model promises no more than a natural-number address here.
- Machine-word overflow is not modelled:
  - `init` requires `start + size` to fit in a 64-bit `usize`, and the invariant keeps `end` within it.
  - Intermediate sums such as the rounded-up byte address are unbounded. The collision check against `p_pos` rejects any request they would overflow on.
  - `count` is unbounded.
- `BumpAllocator.AddMemory`: modelled as the code has it, a success that changes nothing. Growing the span with the added memory is not modelled, because the source gives no rule for it.
- `BumpAllocator.Init`: rebinds the span on every call, as the code does. A second `init` is not rejected as a double initialisation.
- `Ledger.NoOverlap`: covers only runs after a single `init`, because `Op` has no `init` case. A second `init` over the same span hands out pages already given out (`Scenarios.SecondInitReissuesPages`), so no such guarantee holds across it.
- `BumpAllocator.Dealloc`: a release with nothing live returns `NotAllocated` and leaves the state unchanged, rather than letting `count` go below zero. The Rust `dealloc` returns nothing, so this error path is the model's own choice.
- `BumpAllocator.TotalBytes` counts `[start, p_pos)`, the byte area's current ceiling. `BumpAllocator.TotalPages` counts whole pages in `[b_pos, end)`. The source fixes neither formula, so both are the model's own choices.
- `allocator::AllocResult`, the `BaseAllocator`/`ByteAllocator`/`PageAllocator` traits and the `allocator` crate's error type are not part of this model. The two failures used here stand in for that error type.
- Single-threaded use is assumed, as at boot. No locking is modelled.
- `arceos/tour/m_1_0/src/syscall.rs` is left out. It registers trap handlers for system calls and page faults over kernel crates that are not part of this model, and it never calls the allocator.

=== FILE: align.dfy ===
/**
  Address arithmetic shared by the byte and page paths of the early allocator:
  powers of two, multiples, and rounding an address up or down to an alignment.
  Addresses are unbounded naturals; rounding is written with `%`, which for a
  power-of-two alignment agrees with the usual `(x + a - 1) & !(a - 1)` and
  `x & !(a - 1)` bit tricks.
 */
module Align {

  /** `n` is one of 1, 2, 4, 8, ... */
  predicate IsPow2(n: nat)
  {
    n == 1 || (n >= 2 && n % 2 == 0 && IsPow2(n / 2))
  }

  /** `x` is a multiple of the (non-zero) alignment `m`. */
  predicate Aligned(x: nat, m: nat)
  {
    m > 0 && x % m == 0
  }

  function Max(a: nat, b: nat): (r: nat)
    ensures r >= a && r >= b
    ensures r == a || r == b
  {
    if a >= b then a else b
  }

  /** The smallest multiple of `m` that is at least `x`. */
  function AlignUp(x: nat, m: nat): (r: nat)
    requires m > 0
    ensures Aligned(r, m)
    ensures x <= r < x + m
  {
    DivMod(x, m);
    if x % m == 0 then x
    else
      MultipleIsAligned(m, x / m + 1);
      x + (m - x % m)
  }

  /** The largest multiple of `m` that is at most `x`. */
  function AlignDown(x: nat, m: nat): (r: nat)
    requires m > 0
    ensures Aligned(r, m)
    ensures r <= x < r + m
  {
    DivMod(x, m);
    MultipleIsAligned(m, x / m);
    x - x % m
  }

  lemma DivMod(x: nat, m: nat)
    requires m > 0
    ensures x == m * (x / m) + x % m
    ensures 0 <= x % m < m
  {
  }

  /** `r` is the number of whole units of `m` in `x`. */
  predicate WholeUnits(r: nat, x: nat, m: nat)
  {
    r * m <= x < r * m + m
  }

  /** The number of whole units of `m` in `x`: division rounding down. */
  function Units(x: nat, m: nat): (r: nat)
    requires m > 0
    ensures WholeUnits(r, x, m)
    ensures r == x / m
  {
    DivMod(x, m);
    x / m
  }

  /** Adding at least `k` units of `m` adds at least `k` whole units. */
  lemma WholeUnitsGrow(r: nat, x: nat, r': nat, x': nat, k: nat, m: nat)
    requires m > 0 && WholeUnits(r, x, m) && WholeUnits(r', x', m)
    requires x + k * m <= x'
    ensures r + k <= r'
  {
    assert (r + k) * m == r * m + k * m;
    if r + k > r' {
      MulStrictMono(m, r', r + k);
    }
  }

  lemma MulAssoc(a: nat, b: nat, c: nat)
    ensures (a * b) * c == a * (b * c)
  {
  }

  /** `m * d` is at least `m` once `d` is positive. */
  lemma {:induction false} MulGrows(m: nat, d: nat)
    requires d >= 1
    ensures m * d >= m
  {
    if d > 1 {
      MulGrows(m, d - 1);
      assert m * d == m * (d - 1) + m;
    }
  }

  /** Multiplying by `m` keeps distinct integers at least `m` apart. */
  lemma MulStrictMono(m: nat, a: nat, b: nat)
    requires a < b
    ensures m * a + m <= m * b
  {
    MulGrows(m, b - a);
    assert m * b - m * a == m * (b - a);
  }

  /** Quotient and remainder are determined by `x == m * q + r`, `r < m`. */
  lemma DivModUnique(x: nat, m: nat, q: nat, r: nat)
    requires m > 0 && r < m && x == m * q + r
    ensures q == x / m && r == x % m
  {
    DivMod(x, m);
    var q0 := x / m;
    if q > q0 {
      MulStrictMono(m, q0, q);
    } else if q < q0 {
      MulStrictMono(m, q, q0);
    }
  }

  lemma MultipleIsAligned(m: nat, k: nat)
    requires m > 0
    ensures Aligned(m * k, m)
  {
    DivModUnique(m * k, m, k, 0);
  }

  /** Two distinct multiples of `m` lie at least `m` apart. */
  lemma MultiplesApart(a: nat, b: nat, m: nat)
    requires Aligned(a, m) && Aligned(b, m) && a < b
    ensures a + m <= b
  {
    DivMod(a, m);
    DivMod(b, m);
    var i, j := a / m, b / m;
    if j < i {
      MulStrictMono(m, j, i);
      assert false;
    }
    if i < j {
      MulStrictMono(m, i, j);
    }
  }

  lemma AlignUpLeast(x: nat, m: nat, y: nat)
    requires m > 0 && Aligned(y, m) && x <= y
    ensures AlignUp(x, m) <= y
  {
    var r := AlignUp(x, m);
    if y < r {
      MultiplesApart(y, r, m);
    }
  }

  lemma AlignDownGreatest(x: nat, m: nat, y: nat)
    requires m > 0 && Aligned(y, m) && y <= x
    ensures y <= AlignDown(x, m)
  {
    var r := AlignDown(x, m);
    if r < y {
      MultiplesApart(r, y, m);
    }
  }

  /** A multiple of `b` is a multiple of every divisor `a` of `b`. */
  lemma AlignedTransitive(x: nat, a: nat, b: nat)
    requires Aligned(b, a) && Aligned(x, b)
    ensures Aligned(x, a)
  {
    DivMod(b, a);
    DivMod(x, b);
    var k, j := b / a, x / b;
    assert b == a * k;
    assert x == b * j;
    MulAssoc(a, k, j);
    MultipleIsAligned(a, k * j);
  }

  /** Of two powers of two, the smaller divides the larger. */
  lemma {:induction false} Pow2Divides(a: nat, b: nat)
    requires IsPow2(a) && IsPow2(b) && a <= b
    ensures Aligned(b, a)
  {
    if a == 1 {
      MultipleIsAligned(1, b);
    } else {
      Pow2Divides(a / 2, b / 2);
      DivMod(b / 2, a / 2);
      var k := (b / 2) / (a / 2);
      assert b == a * k;
      MultipleIsAligned(a, k);
    }
  }

  /**
    For power-of-two alignments, the multiples of the larger one are exactly
    the common multiples of both.
   */
  lemma {:induction false} Pow2CommonMultiple(x: nat, a: nat, b: nat)
    requires IsPow2(a) && IsPow2(b)
    ensures Aligned(x, Max(a, b)) <==> Aligned(x, a) && Aligned(x, b)
  {
    if a <= b {
      Pow2Divides(a, b);
      if Aligned(x, b) {
        AlignedTransitive(x, a, b);
      }
    } else {
      Pow2Divides(b, a);
      if Aligned(x, a) {
        AlignedTransitive(x, b, a);
      }
    }
  }

  /** Adding whole multiples of `m` adds exactly that many to the quotient. */
  lemma FloorShift(x: nat, k: nat, m: nat)
    requires m > 0
    ensures (x + k * m) / m == x / m + k
  {
    DivMod(x, m);
    DivModUnique(x + k * m, m, x / m + k, x % m);
  }

  /** Division rounding down is monotone. */
  lemma FloorMonotone(x: nat, y: nat, m: nat)
    requires m > 0 && x <= y
    ensures x / m <= y / m
  {
    DivMod(x, m);
    DivMod(y, m);
    if x / m > y / m {
      MulStrictMono(m, y / m, x / m);
    }
  }

  /** Splitting a range in two loses at most one whole unit to rounding. */
  lemma FloorSplit(x: nat, y: nat, m: nat)
    requires m > 0
    ensures x / m + y / m <= (x + y) / m <= x / m + y / m + 1
  {
    DivMod(x, m);
    DivMod(y, m);
    var s := x % m + y % m;
    if s < m {
      DivModUnique(x + y, m, x / m + y / m, s);
    } else {
      DivModUnique(x + y, m, x / m + y / m + 1, s - m);
    }
  }
}

=== FILE: alloc_result.dfy ===
/**
  The result type the allocator interfaces return: a value on success, or the
  kind of failure. Only the failures the early allocator can report are listed.
 */
module AllocResult {

  datatype AllocError =
    | NoMemory      // the byte area and the page area would collide
    | NotAllocated  // a byte deallocation with no byte allocation outstanding

  datatype Result<+T> = Ok(value: T) | Err(error: AllocError)
}

=== FILE: bump_allocator.dfy ===
/**
  The double-ended early allocator. One span `[start, end)` serves two kinds of
  request from opposite ends:

      [ bytes-used | avail-area | pages-used ]
      |            | -->    <-- |            |
      start       bPos        pPos         end

  Byte allocations bump `bPos` forward; `count` records how many are live, and
  when it drops back to zero the whole byte area is reclaimed at once. Page
  allocations bump `pPos` backward and are never given back.

  Every operation is a pure function from the allocator state to a `Step`: the
  value the interface returns, and the state after the call.
 */
module BumpAllocator {
  import opened AllocResult
  import opened Align

  /** Largest value of a 64-bit `usize`; no address of the span exceeds it. */
  const UsizeMax: nat := 0xFFFF_FFFF_FFFF_FFFF

  /** A byte request: `size` bytes starting at a multiple of `align`. */
  datatype Layout = Layout(size: nat, align: nat)

  /** What a layout guarantees by construction: its alignment is a power of two. */
  predicate LayoutOk(l: Layout)
  {
    IsPow2(l.align)
  }

  datatype EarlyAllocator = EarlyAllocator(
    start: nat,
    end: nat,
    bPos: nat,     // first free byte above the byte area
    pPos: nat,     // lowest byte of the page area
    count: nat,    // number of live byte allocations
    pageSize: nat  // the page granularity fixed by the type
  )
  {
    /**
      The layout of the diagram: the two areas never cross, and the page
      cursor sits on a page boundary once it has left `end`.
     */
    predicate Valid()
    {
      && IsPow2(pageSize)
      && start <= bPos <= pPos <= end <= UsizeMax
      && (pPos == end || Aligned(pPos, pageSize))
      && (count == 0 ==> bPos == start)
    }

    /** Nothing handed out: the whole span is the available gap. */
    predicate Empty()
    {
      bPos == start && pPos == end && count == 0
    }
  }

  /** The value an operation returns, and the allocator state after it. */
  datatype Step<+T> = Step(result: Result<T>, next: EarlyAllocator)

  /**
    `b` can follow `a` through allocation calls: the span and page size stay
    fixed, the page area only grows, and the byte cursor only moves forward
    unless it is reset to `start`.
   */
  predicate Follows(a: EarlyAllocator, b: EarlyAllocator)
  {
    && b.start == a.start && b.end == a.end && b.pageSize == a.pageSize
    && b.pPos <= a.pPos
    && (a.bPos <= b.bPos || b.bPos == b.start)
  }

  // ---------------------------------------------------------------- lifecycle

  /** The constant constructor: an empty span at address 0. */
  function New(pageSize: nat): (a: EarlyAllocator)
    requires IsPow2(pageSize)
    ensures a.Valid() && a.Empty()
    ensures a.start == 0 && a.end == 0 && a.pageSize == pageSize
  {
    EarlyAllocator(0, 0, 0, 0, 0, pageSize)
  }

  /** Binds the allocator to `[start, start + size)` with both areas empty. */
  function Init(a: EarlyAllocator, start: nat, size: nat): (r: EarlyAllocator)
    requires IsPow2(a.pageSize)
    requires start + size <= UsizeMax
    ensures r.Valid() && r.Empty()
    ensures r.start == start && r.end == start + size && r.pageSize == a.pageSize
  {
    EarlyAllocator(start, start + size, start, start + size, 0, a.pageSize)
  }

  /** Extra memory is accepted and ignored. */
  function AddMemory(a: EarlyAllocator, start: nat, size: nat): (r: Step<()>)
    requires a.Valid()
    ensures r.result.Ok? && r.next == a
  {
    Step(Ok(()), a)
  }

  // ----------------------------------------------------------- byte requests

  /** `x` is a place in the free gap where `l` fits. */
  predicate ByteSlot(a: EarlyAllocator, l: Layout, x: nat)
  {
    a.bPos <= x && Aligned(x, l.align) && x + l.size <= a.pPos
  }

  lemma ByteSlotLeast(a: EarlyAllocator, l: Layout)
    requires LayoutOk(l)
    ensures forall x: nat :: ByteSlot(a, l, x) ==> AlignUp(a.bPos, l.align) <= x
  {
    forall x: nat | ByteSlot(a, l, x)
      ensures AlignUp(a.bPos, l.align) <= x
    {
      AlignUpLeast(a.bPos, l.align, x);
    }
  }

  /**
    Allocates `l.size` bytes at the lowest aligned address of the gap, or
    reports `NoMemory` and changes nothing when no such place exists.
   */
  function Alloc(a: EarlyAllocator, l: Layout): (r: Step<nat>)
    requires a.Valid() && LayoutOk(l)
    ensures r.next.Valid() && Follows(a, r.next)
    ensures r.result.Ok? <==> exists x: nat :: ByteSlot(a, l, x)
    ensures r.result.Ok? ==>
              && ByteSlot(a, l, r.result.value)
              && (forall x: nat :: ByteSlot(a, l, x) ==> r.result.value <= x)
              && r.next == a.(bPos := r.result.value + l.size, count := a.count + 1)
    ensures r.result.Err? ==> r.result.error == NoMemory && r.next == a
  {
    var addr := AlignUp(a.bPos, l.align);
    ByteSlotLeast(a, l);
    if addr + l.size <= a.pPos then
      assert ByteSlot(a, l, addr);
      Step(Ok(addr), a.(bPos := addr + l.size, count := a.count + 1))
    else
      Step(Err(NoMemory), a)
  }

  /**
    Releases one byte allocation. The pointer and layout are not consulted:
    the byte area is reclaimed as a whole once no allocation is live. A release
    with nothing live is reported instead of driving the count below zero.
   */
  function Dealloc(a: EarlyAllocator, addr: nat, l: Layout): (r: Step<()>)
    requires a.Valid()
    ensures r.next.Valid() && Follows(a, r.next)
    ensures r.result.Ok? <==> a.count > 0
    ensures r.result.Ok? ==>
              && r.next.count + 1 == a.count
              && (r.next.count == 0 ==> r.next.bPos == a.start)
              && (r.next.count > 0 ==> r.next.bPos == a.bPos)
              && r.next.(bPos := a.bPos, count := a.count) == a
    ensures r.result.Err? ==> r.result.error == NotAllocated && r.next == a
  {
    if a.count == 0 then
      Step(Err(NotAllocated), a)
    else if a.count == 1 then
      Step(Ok(()), a.(bPos := a.start, count := 0))
    else
      Step(Ok(()), a.(count := a.count - 1))
  }

  /** Bytes handed out since the byte area was last reclaimed, padding included. */
  function UsedBytes(a: EarlyAllocator): (r: nat)
    requires a.Valid()
    ensures a.start + r == a.bPos
    ensures a.count == 0 ==> r == 0
  {
    a.bPos - a.start
  }

  /** The size of the gap: the largest byte request without alignment that can succeed. */
  function AvailableBytes(a: EarlyAllocator): (r: nat)
    requires a.Valid()
    ensures Alloc(a, Layout(r, 1)).result.Ok?
    ensures !Alloc(a, Layout(r + 1, 1)).result.Ok?
    ensures forall l :: LayoutOk(l) && Alloc(a, l).result.Ok? ==> l.size <= r
  {
    assert ByteSlot(a, Layout(a.pPos - a.bPos, 1), a.bPos);
    a.pPos - a.bPos
  }

  /** The byte area's ceiling is the current page boundary. */
  function TotalBytes(a: EarlyAllocator): (r: nat)
    requires a.Valid()
    ensures r == UsedBytes(a) + AvailableBytes(a)
  {
    a.pPos - a.start
  }

  // ----------------------------------------------------------- page requests

  /** `y` is a place below the page area for `numPages` pages aligned to both `alignPow2` and the page size. */
  predicate PageSlot(a: EarlyAllocator, numPages: nat, alignPow2: nat, y: nat)
  {
    && a.bPos <= y
    && Aligned(y, alignPow2) && Aligned(y, a.pageSize)
    && y + numPages * a.pageSize <= a.pPos
  }

  lemma PageSlotGreatest(a: EarlyAllocator, numPages: nat, alignPow2: nat)
    requires a.Valid() && IsPow2(alignPow2)
    requires numPages * a.pageSize <= a.pPos
    ensures forall y: nat :: PageSlot(a, numPages, alignPow2, y) ==>
              y <= AlignDown(a.pPos - numPages * a.pageSize, Max(alignPow2, a.pageSize))
  {
    forall y: nat | PageSlot(a, numPages, alignPow2, y)
      ensures y <= AlignDown(a.pPos - numPages * a.pageSize, Max(alignPow2, a.pageSize))
    {
      Pow2CommonMultiple(y, alignPow2, a.pageSize);
      AlignDownGreatest(a.pPos - numPages * a.pageSize, Max(alignPow2, a.pageSize), y);
    }
  }

  /**
    Allocates `numPages` contiguous pages at the highest suitably aligned
    address below the page area, or reports `NoMemory` and changes nothing
    when that would cross the byte cursor.
   */
  function AllocPages(a: EarlyAllocator, numPages: nat, alignPow2: nat): (r: Step<nat>)
    requires a.Valid() && IsPow2(alignPow2)
    ensures r.next.Valid() && Follows(a, r.next)
    ensures r.result.Ok? <==> exists y: nat :: PageSlot(a, numPages, alignPow2, y)
    ensures r.result.Ok? ==>
              && PageSlot(a, numPages, alignPow2, r.result.value)
              && (forall y: nat :: PageSlot(a, numPages, alignPow2, y) ==> y <= r.result.value)
              && r.next == a.(pPos := r.result.value)
    ensures r.result.Err? ==> r.result.error == NoMemory && r.next == a
  {
    var need := numPages * a.pageSize;
    if need > a.pPos then
      Step(Err(NoMemory), a)
    else
      var addr := AlignDown(a.pPos - need, Max(alignPow2, a.pageSize));
      PageSlotGreatest(a, numPages, alignPow2);
      Pow2CommonMultiple(addr, alignPow2, a.pageSize);
      if a.bPos <= addr then
        assert PageSlot(a, numPages, alignPow2, addr);
        Step(Ok(addr), a.(pPos := addr))
      else
        Step(Err(NoMemory), a)
  }

  /** Pages are never given back: the call is accepted and changes nothing. */
  function DeallocPages(a: EarlyAllocator, addr: nat, count: nat): (r: EarlyAllocator)
    requires a.Valid()
    ensures r == a
  {
    a
  }

  /** Whole pages held by the page area. */
  function UsedPages(a: EarlyAllocator): (r: nat)
    requires a.Valid()
    ensures WholeUnits(r, a.end - a.pPos, a.pageSize)
  {
    Units(a.end - a.pPos, a.pageSize)
  }

  /** Whole pages in the gap: no page request for more can succeed. */
  function AvailablePages(a: EarlyAllocator): (r: nat)
    requires a.Valid()
    ensures WholeUnits(r, a.pPos - a.bPos, a.pageSize)
    ensures forall n: nat, al: nat, y: nat :: PageSlot(a, n, al, y) ==> n <= r
  {
    AvailablePagesBound(a);
    Units(a.pPos - a.bPos, a.pageSize)
  }

  lemma AvailablePagesBound(a: EarlyAllocator)
    requires a.Valid()
    ensures forall n: nat, al: nat, y: nat :: PageSlot(a, n, al, y) ==>
              n <= (a.pPos - a.bPos) / a.pageSize
  {
    forall n: nat, al: nat, y: nat | PageSlot(a, n, al, y)
      ensures n <= (a.pPos - a.bPos) / a.pageSize
    {
      FloorShift(0, n, a.pageSize);
      FloorMonotone(n * a.pageSize, a.pPos - a.bPos, a.pageSize);
    }
  }

  /** Whole pages between the byte cursor and `end`: the used and free pages, give or take one split by `pPos`. */
  function TotalPages(a: EarlyAllocator): (r: nat)
    requires a.Valid()
    ensures WholeUnits(r, a.end - a.bPos, a.pageSize)
    ensures UsedPages(a) + AvailablePages(a) <= r <= UsedPages(a) + AvailablePages(a) + 1
  {
    var r := Units(a.end - a.bPos, a.pageSize);
    FloorSplit(a.end - a.pPos, a.pPos - a.bPos, a.pageSize);
    assert UsedPages(a) == (a.end - a.pPos) / a.pageSize;
    assert AvailablePages(a) == (a.pPos - a.bPos) / a.pageSize;
    r
  }

  // -------------------------------------------------------------- accounting

  /** Right after `init` nothing is used and the whole span is available. */
  lemma InitStatistics(a: EarlyAllocator, start: nat, size: nat)
    requires IsPow2(a.pageSize) && start + size <= UsizeMax
    ensures var r := Init(a, start, size);
            && UsedBytes(r) == 0 && AvailableBytes(r) == size && TotalBytes(r) == size
            && UsedPages(r) == 0 && AvailablePages(r) == size / a.pageSize
  {
  }

  /**
    A successful byte request moves its size, plus less than one alignment
    unit of padding, from the available to the used bytes; the page figures
    do not move.
   */
  lemma AllocAccounting(a: EarlyAllocator, l: Layout)
    requires a.Valid() && LayoutOk(l) && Alloc(a, l).result.Ok?
    ensures var s := Alloc(a, l);
            var pad := s.result.value - a.bPos;
            && pad < l.align
            && UsedBytes(s.next) == UsedBytes(a) + pad + l.size
            && AvailableBytes(s.next) + pad + l.size == AvailableBytes(a)
            && TotalBytes(s.next) == TotalBytes(a)
            && UsedPages(s.next) == UsedPages(a)
  {
    var s := Alloc(a, l);
    var up := AlignUp(a.bPos, l.align);
    AlignUpLeast(a.bPos, l.align, s.result.value);
    assert ByteSlot(a, l, up);
  }

  /**
    A successful page request adds at least `numPages` to the used pages and
    takes at least that many pages' worth of bytes from the gap; the byte
    area itself does not move.
   */
  lemma AllocPagesAccounting(a: EarlyAllocator, numPages: nat, alignPow2: nat)
    requires a.Valid() && IsPow2(alignPow2) && AllocPages(a, numPages, alignPow2).result.Ok?
    ensures var s := AllocPages(a, numPages, alignPow2);
            && UsedPages(a) + numPages <= UsedPages(s.next)
            && AvailableBytes(s.next) + numPages * a.pageSize <= AvailableBytes(a)
            && UsedBytes(s.next) == UsedBytes(a)
  {
    var s := AllocPages(a, numPages, alignPow2);
    assert s.result.value + numPages * a.pageSize <= a.pPos;
    WholeUnitsGrow(UsedPages(a), a.end - a.pPos, UsedPages(s.next), a.end - s.next.pPos,
                   numPages, a.pageSize);
  }
}

=== FILE: ledger.dfy ===
/**
  The no-overlap guarantee over any run of calls after a single `init`. A `Ledger` pairs the
  allocator with the regions it has handed out: the byte regions since the
  byte area was last reclaimed, and every page region ever. Each call keeps
  the byte regions inside `[start, bPos)`, the page regions inside
  `[pPos, end)`, and all of them pairwise disjoint.
 */
module Ledger {
  import opened Align
  import opened BumpAllocator

  datatype Region = Region(base: nat, len: nat)

  predicate Inside(r: Region, lo: nat, hi: nat)
  {
    lo <= r.base && r.base + r.len <= hi
  }

  predicate Disjoint(r: Region, q: Region)
  {
    r.base + r.len <= q.base || q.base + q.len <= r.base
  }

  predicate PairwiseDisjoint(rs: seq<Region>)
  {
    forall i, j :: 0 <= i < j < |rs| ==> Disjoint(rs[i], rs[j])
  }

  /** One byte, page or `add_memory` call made after the single `init`. */
  datatype Op =
    | AllocOp(layout: Layout)
    | DeallocOp(addr: nat, layout: Layout)
    | AllocPagesOp(numPages: nat, alignPow2: nat)
    | DeallocPagesOp(addr: nat, count: nat)
    | AddMemoryOp(base: nat, size: nat)

  /** The argument guarantees each call relies on. */
  predicate OpOk(op: Op)
  {
    match op
    case AllocOp(l) => LayoutOk(l)
    case AllocPagesOp(_, alignPow2) => IsPow2(alignPow2)
    case _ => true
  }

  datatype Ledger = Ledger(alloc: EarlyAllocator, bytes: seq<Region>, pages: seq<Region>)

  /** The regions handed out sit in their areas and never overlap. */
  predicate Sound(h: Ledger)
  {
    && h.alloc.Valid()
    && (forall i :: 0 <= i < |h.bytes| ==> Inside(h.bytes[i], h.alloc.start, h.alloc.bPos))
    && (forall i :: 0 <= i < |h.pages| ==> Inside(h.pages[i], h.alloc.pPos, h.alloc.end))
    && PairwiseDisjoint(h.bytes)
    && PairwiseDisjoint(h.pages)
  }

  /** The ledger of a freshly initialised allocator: nothing handed out. */
  function Fresh(a: EarlyAllocator): (h: Ledger)
    requires a.Valid() && a.Empty()
    ensures Sound(h) && h.alloc == a
  {
    Ledger(a, [], [])
  }

  /** Adding a region above every region of a disjoint list keeps it disjoint. */
  lemma {:induction false} AppendAbove(rs: seq<Region>, r: Region, bound: nat)
    requires PairwiseDisjoint(rs)
    requires forall i :: 0 <= i < |rs| ==> rs[i].base + rs[i].len <= bound
    requires bound <= r.base
    ensures PairwiseDisjoint(rs + [r])
  {
    var rs' := rs + [r];
    forall i, j | 0 <= i < j < |rs'|
      ensures Disjoint(rs'[i], rs'[j])
    {
      if j == |rs| {
        assert rs'[i] == rs[i];
      } else {
        assert rs'[i] == rs[i] && rs'[j] == rs[j];
      }
    }
  }

  /** Adding a region below every region of a disjoint list keeps it disjoint. */
  lemma {:induction false} AppendBelow(rs: seq<Region>, r: Region, bound: nat)
    requires PairwiseDisjoint(rs)
    requires forall i :: 0 <= i < |rs| ==> bound <= rs[i].base
    requires r.base + r.len <= bound
    ensures PairwiseDisjoint(rs + [r])
  {
    var rs' := rs + [r];
    forall i, j | 0 <= i < j < |rs'|
      ensures Disjoint(rs'[i], rs'[j])
    {
      if j == |rs| {
        assert rs'[i] == rs[i];
      } else {
        assert rs'[i] == rs[i] && rs'[j] == rs[j];
      }
    }
  }

  /** A byte request; on success its region joins the byte regions. */
  function ApplyAlloc(h: Ledger, l: Layout): (r: Ledger)
    requires Sound(h) && LayoutOk(l)
    ensures var s := Alloc(h.alloc, l);
            && r.alloc == s.next
            && r.bytes == (if s.result.Ok? then h.bytes + [Region(s.result.value, l.size)] else h.bytes)
    ensures Sound(r) && r.pages == h.pages && r.alloc.pPos == h.alloc.pPos
    ensures r.alloc.start == h.alloc.start && r.alloc.end == h.alloc.end
    ensures r.alloc.pageSize == h.alloc.pageSize
  {
    var s := Alloc(h.alloc, l);
    if s.result.Ok? then
      var region := Region(s.result.value, l.size);
      AppendAbove(h.bytes, region, h.alloc.bPos);
      Ledger(s.next, h.bytes + [region], h.pages)
    else
      h
  }

  /** A byte release; the release that reclaims the byte area forgets every byte region. */
  function ApplyDealloc(h: Ledger, addr: nat, l: Layout): (r: Ledger)
    requires Sound(h)
    ensures var s := Dealloc(h.alloc, addr, l);
            && r.alloc == s.next
            && r.bytes == (if s.next.count == 0 then [] else h.bytes)
    ensures Sound(r) && r.pages == h.pages && r.alloc.pPos == h.alloc.pPos
    ensures r.alloc.start == h.alloc.start && r.alloc.end == h.alloc.end
    ensures r.alloc.pageSize == h.alloc.pageSize
  {
    var s := Dealloc(h.alloc, addr, l);
    Ledger(s.next, if s.next.count == 0 then [] else h.bytes, h.pages)
  }

  /** A page request; on success its pages join the page regions. */
  function ApplyAllocPages(h: Ledger, numPages: nat, alignPow2: nat): (r: Ledger)
    requires Sound(h) && IsPow2(alignPow2)
    ensures var s := AllocPages(h.alloc, numPages, alignPow2);
            && r.alloc == s.next && r.bytes == h.bytes
            && r.pages == (if s.result.Ok? then h.pages + [Region(s.result.value, numPages * h.alloc.pageSize)] else h.pages)
    ensures Sound(r) && h.pages <= r.pages && r.alloc.pPos <= h.alloc.pPos
    ensures r.alloc.start == h.alloc.start && r.alloc.end == h.alloc.end
    ensures r.alloc.pageSize == h.alloc.pageSize
  {
    var s := AllocPages(h.alloc, numPages, alignPow2);
    if s.result.Ok? then
      var region := Region(s.result.value, numPages * h.alloc.pageSize);
      AppendBelow(h.pages, region, h.alloc.pPos);
      Ledger(s.next, h.bytes, h.pages + [region])
    else
      h
  }

  /** Performs one call and records what it handed out. */
  function Apply(h: Ledger, op: Op): (r: Ledger)
    requires Sound(h) && OpOk(op)
    ensures op.AllocOp? ==>
              var s := Alloc(h.alloc, op.layout);
              && r.alloc == s.next && r.pages == h.pages
              && r.bytes == (if s.result.Ok? then h.bytes + [Region(s.result.value, op.layout.size)] else h.bytes)
    ensures op.AllocPagesOp? ==>
              var s := AllocPages(h.alloc, op.numPages, op.alignPow2);
              && r.alloc == s.next && r.bytes == h.bytes
              && r.pages == (if s.result.Ok? then h.pages + [Region(s.result.value, op.numPages * h.alloc.pageSize)] else h.pages)
    ensures Sound(r)
    ensures h.pages <= r.pages
    ensures r.alloc.start == h.alloc.start && r.alloc.end == h.alloc.end
    ensures r.alloc.pageSize == h.alloc.pageSize
    ensures r.alloc.pPos <= h.alloc.pPos
  {
    match op
    case AllocOp(l) => ApplyAlloc(h, l)
    case DeallocOp(addr, l) => ApplyDealloc(h, addr, l)
    case AllocPagesOp(n, alignPow2) => ApplyAllocPages(h, n, alignPow2)
    case DeallocPagesOp(addr, count) => Ledger(DeallocPages(h.alloc, addr, count), h.bytes, h.pages)
    case AddMemoryOp(base, size) => Ledger(AddMemory(h.alloc, base, size).next, h.bytes, h.pages)
  }

  /** Performs a run of calls in order. */
  function Run(h: Ledger, ops: seq<Op>): (r: Ledger)
    requires Sound(h)
    requires forall i :: 0 <= i < |ops| ==> OpOk(ops[i])
    ensures Sound(r)
    ensures h.pages <= r.pages
    ensures r.alloc.start == h.alloc.start && r.alloc.end == h.alloc.end
    ensures r.alloc.pageSize == h.alloc.pageSize
    ensures r.alloc.pPos <= h.alloc.pPos
    decreases |ops|
  {
    if ops == [] then h else Run(Apply(h, ops[0]), ops[1..])
  }

  /** No byte region overlaps a page region. */
  lemma BytesMissPages(h: Ledger)
    requires Sound(h)
    ensures forall i, j :: 0 <= i < |h.bytes| && 0 <= j < |h.pages| ==>
              Disjoint(h.bytes[i], h.pages[j])
  {
  }

  /**
    After a single `init` and any run of byte, page and `add_memory` calls,
    every region still handed out lies in the span and no two of them overlap.
   */
  lemma {:induction false} NoOverlap(a: EarlyAllocator, start: nat, size: nat, ops: seq<Op>)
    requires IsPow2(a.pageSize) && start + size <= UsizeMax
    requires forall i :: 0 <= i < |ops| ==> OpOk(ops[i])
    ensures var h := Run(Fresh(Init(a, start, size)), ops);
            && (forall i :: 0 <= i < |h.bytes| ==> Inside(h.bytes[i], start, start + size))
            && (forall i :: 0 <= i < |h.pages| ==> Inside(h.pages[i], start, start + size))
            && PairwiseDisjoint(h.bytes) && PairwiseDisjoint(h.pages)
            && (forall i, j :: 0 <= i < |h.bytes| && 0 <= j < |h.pages| ==>
                  Disjoint(h.bytes[i], h.pages[j]))
  {
    var h := Run(Fresh(Init(a, start, size)), ops);
    BytesMissPages(h);
  }
}

=== FILE: reclaim.dfy ===
/**
  Runs of byte requests and releases, and the bulk reclaim of the byte area:
  once every live byte allocation has been released the allocator is back in
  exactly the state it had before they were made.
 */
module Reclaim {
  import opened AllocResult
  import opened Align
  import opened BumpAllocator

  /**
    `addrs` places the layouts `ls` in order: each aligned, all between `lo`
    and `hi`, each ending before the next begins.
   */
  predicate Placed(ls: seq<Layout>, addrs: seq<nat>, lo: nat, hi: nat)
  {
    && |addrs| == |ls|
    && (forall i :: 0 <= i < |ls| ==> Aligned(addrs[i], ls[i].align))
    && (forall i :: 0 <= i < |ls| ==> lo <= addrs[i] && addrs[i] + ls[i].size <= hi)
    && (forall i :: 0 <= i < |ls| - 1 ==> addrs[i] + ls[i].size <= addrs[i + 1])
  }

  lemma PlacedCons(l: Layout, ls: seq<Layout>, x: nat, addrs: seq<nat>, lo: nat, hi: nat)
    requires lo <= x && Aligned(x, l.align)
    requires Placed(ls, addrs, x + l.size, hi) && x + l.size <= hi
    ensures Placed([l] + ls, [x] + addrs, lo, hi)
  {
    var ls', addrs' := [l] + ls, [x] + addrs;
    forall i | 1 <= i < |ls'|
      ensures addrs'[i] == addrs[i - 1] && ls'[i] == ls[i - 1]
    {
    }
  }

  /** `b` differs from `a` at most in its byte cursor and count. */
  predicate OnlyBytesMoved(a: EarlyAllocator, b: EarlyAllocator)
  {
    b.start == a.start && b.end == a.end && b.pPos == a.pPos && b.pageSize == a.pageSize
  }

  /** Allocates each layout in turn; the first failure ends the run. */
  function AllocEach(a: EarlyAllocator, ls: seq<Layout>): (r: Step<seq<nat>>)
    requires a.Valid()
    requires forall i :: 0 <= i < |ls| ==> LayoutOk(ls[i])
    ensures r.next.Valid() && OnlyBytesMoved(a, r.next)
    ensures a.bPos <= r.next.bPos && a.count <= r.next.count
    ensures r.result.Err? ==> r.result.error == NoMemory
    ensures r.result.Ok? ==>
              && r.next.count == a.count + |ls|
              && Placed(ls, r.result.value, a.bPos, r.next.bPos)
    decreases |ls|
  {
    if ls == [] then
      Step(Ok([]), a)
    else
      var first := Alloc(a, ls[0]);
      if first.result.Err? then
        Step(Err(first.result.error), first.next)
      else
        var rest := AllocEach(first.next, ls[1..]);
        if rest.result.Err? then
          Step(Err(rest.result.error), rest.next)
        else
          assert ls == [ls[0]] + ls[1..];
          PlacedCons(ls[0], ls[1..], first.result.value, rest.result.value, a.bPos, rest.next.bPos);
          Step(Ok([first.result.value] + rest.result.value), rest.next)
  }

  /** Releases one byte allocation per entry; stops with `NotAllocated` when none is left. */
  function DeallocEach(a: EarlyAllocator, frees: seq<(nat, Layout)>): (r: Step<()>)
    requires a.Valid()
    ensures r.next.Valid() && OnlyBytesMoved(a, r.next)
    ensures r.result.Ok? <==> |frees| <= a.count
    ensures r.result.Ok? ==> r.next.count + |frees| == a.count
    ensures r.result.Err? ==> r.result.error == NotAllocated && r.next.count == 0
    ensures r.next.count > 0 ==> r.next.bPos == a.bPos
    decreases |frees|
  {
    if frees == [] then
      Step(Ok(()), a)
    else
      var first := Dealloc(a, frees[0].0, frees[0].1);
      if first.result.Err? then
        first
      else
        DeallocEach(first.next, frees[1..])
  }

  /**
    Allocating any run of byte requests into an empty byte area and releasing
    as many restores the allocator exactly, so the next request is placed as
    if the run had never happened.
   */
  lemma {:induction false} BulkReclaim(a: EarlyAllocator, ls: seq<Layout>, frees: seq<(nat, Layout)>)
    requires a.Valid() && a.count == 0
    requires forall i :: 0 <= i < |ls| ==> LayoutOk(ls[i])
    requires |frees| == |ls|
    ensures AllocEach(a, ls).result.Ok? ==> DeallocEach(AllocEach(a, ls).next, frees) == Step(Ok(()), a)
  {
    if AllocEach(a, ls).result.Err? {
      return;
    }
    var mid := AllocEach(a, ls).next;
    assert mid.count == |frees|;
    ReleaseAllResets(mid, frees);
    assert mid.(bPos := mid.start, count := 0) == a;
    var done := DeallocEach(mid, frees);
    assert done.result.Ok?;
    assert done.result.value == ();
  }

  /** Releasing exactly the live allocations always brings the byte cursor back to `start`. */
  lemma {:induction false} ReleaseAllResets(a: EarlyAllocator, frees: seq<(nat, Layout)>)
    requires a.Valid() && |frees| == a.count
    ensures DeallocEach(a, frees).result.Ok?
    ensures DeallocEach(a, frees).next == a.(bPos := a.start, count := 0)
  {
  }
}

=== FILE: scenarios.dfy ===
/**
  Concrete call sequences with a 4 KiB page, each stated as a lemma.
 */
module Scenarios {
  import opened AllocResult
  import opened BumpAllocator
  import opened Reclaim

  /** The allocator over `[0x1000, 0x4000)` with the given cursors and count. */
  function ThreePageSpan(bPos: nat, pPos: nat, count: nat): EarlyAllocator
  {
    EarlyAllocator(0x1000, 0x4000, bPos, pPos, count, 0x1000)
  }

  /** The allocator over `[0x1000, 0x3000)` with the given cursors and count. */
  function TwoPageSpan(bPos: nat, pPos: nat, count: nat): EarlyAllocator
  {
    EarlyAllocator(0x1000, 0x3000, bPos, pPos, count, 0x1000)
  }

  /**
    Span `[0x1000, 0x4000)`: two byte requests are placed at the bottom, the
    second rounded up to its 16-byte alignment; one page comes from the top;
    two more pages no longer fit above the byte area.
   */
  lemma MixedRequests()
    ensures Init(New(0x1000), 0x1000, 0x3000) == ThreePageSpan(0x1000, 0x4000, 0)
    ensures Alloc(ThreePageSpan(0x1000, 0x4000, 0), Layout(64, 8)) == Step(Ok(0x1000), ThreePageSpan(0x1040, 0x4000, 1))
    ensures Alloc(ThreePageSpan(0x1040, 0x4000, 1), Layout(32, 16)) == Step(Ok(0x1040), ThreePageSpan(0x1060, 0x4000, 2))
    ensures AllocPages(ThreePageSpan(0x1060, 0x4000, 2), 1, 0x1000) == Step(Ok(0x3000), ThreePageSpan(0x1060, 0x3000, 2))
    ensures AllocPages(ThreePageSpan(0x1060, 0x3000, 2), 2, 0x1000) == Step(Err(NoMemory), ThreePageSpan(0x1060, 0x3000, 2))
    ensures UsedBytes(ThreePageSpan(0x1060, 0x3000, 2)) == 0x60 && UsedPages(ThreePageSpan(0x1060, 0x3000, 2)) == 1
  {
  }

  /**
    Span `[0x1000, 0x3000)`: single pages succeed while a whole page remains
    above the byte cursor, and the request that would cross it fails.
   */
  lemma PagesUntilCollision()
    ensures Init(New(0x1000), 0x1000, 0x2000) == TwoPageSpan(0x1000, 0x3000, 0)
    ensures AllocPages(TwoPageSpan(0x1000, 0x3000, 0), 1, 0x1000) == Step(Ok(0x2000), TwoPageSpan(0x1000, 0x2000, 0))
    ensures AllocPages(TwoPageSpan(0x1000, 0x2000, 0), 1, 0x1000) == Step(Ok(0x1000), TwoPageSpan(0x1000, 0x1000, 0))
    ensures AllocPages(TwoPageSpan(0x1000, 0x1000, 0), 1, 0x1000) == Step(Err(NoMemory), TwoPageSpan(0x1000, 0x1000, 0))
    ensures AvailablePages(TwoPageSpan(0x1000, 0x1000, 0)) == 0
  {
  }

  /** Two byte requests in a row land at `0x1000` and `0x1040`. */
  lemma TwoByteRequests()
    ensures AllocEach(ThreePageSpan(0x1000, 0x4000, 0), [Layout(64, 8), Layout(32, 16)])
              == Step(Ok([0x1000, 0x1040]), ThreePageSpan(0x1060, 0x4000, 2))
  {
    var ls := [Layout(64, 8), Layout(32, 16)];
    assert ls[1..] == [Layout(32, 16)] && ls[1..][1..] == [];
    assert Alloc(ThreePageSpan(0x1000, 0x4000, 0), Layout(64, 8)) == Step(Ok(0x1000), ThreePageSpan(0x1040, 0x4000, 1));
    assert Alloc(ThreePageSpan(0x1040, 0x4000, 1), Layout(32, 16)) == Step(Ok(0x1040), ThreePageSpan(0x1060, 0x4000, 2));
    assert AllocEach(ThreePageSpan(0x1060, 0x4000, 2), []) == Step(Ok([]), ThreePageSpan(0x1060, 0x4000, 2));
    assert [0x1040] + [] == [0x1040];
    assert AllocEach(ThreePageSpan(0x1040, 0x4000, 1), ls[1..]) == Step(Ok([0x1040]), ThreePageSpan(0x1060, 0x4000, 2));
    assert [0x1000] + [0x1040] == [0x1000, 0x1040];
  }

  /**
    Releasing those two reclaims the byte area: the next request reuses
    `start`, and one release too many is reported.
   */
  lemma ReuseAfterReclaim()
    ensures DeallocEach(ThreePageSpan(0x1060, 0x4000, 2), [(0x1000, Layout(64, 8)), (0x1040, Layout(32, 16))])
              == Step(Ok(()), ThreePageSpan(0x1000, 0x4000, 0))
    ensures Alloc(ThreePageSpan(0x1000, 0x4000, 0), Layout(16, 16)) == Step(Ok(0x1000), ThreePageSpan(0x1010, 0x4000, 1))
    ensures Dealloc(ThreePageSpan(0x1000, 0x4000, 0), 0x1000, Layout(16, 16))
              == Step(Err(NotAllocated), ThreePageSpan(0x1000, 0x4000, 0))
  {
  }

  /**
    Before `init` the span is empty: a request with a size is refused with
    the same `NoMemory` a collision gives, and a zero-size request succeeds
    at address 0.
   */
  lemma BeforeInit()
    ensures Alloc(New(0x1000), Layout(8, 8)) == Step(Err(NoMemory), New(0x1000))
    ensures Alloc(New(0x1000), Layout(0, 1)).result == Ok(0)
  {
  }

  /**
    A second `init` over the same span forgets the page already handed out,
    so the same page is handed out again.
   */
  lemma SecondInitReissuesPages()
    ensures AllocPages(Init(New(0x1000), 0x1000, 0x3000), 1, 0x1000).result == Ok(0x3000)
    ensures var first := AllocPages(Init(New(0x1000), 0x1000, 0x3000), 1, 0x1000);
            AllocPages(Init(first.next, 0x1000, 0x3000), 1, 0x1000).result == Ok(0x3000)
  {
  }

  /** A second `init` rebinds the span and forgets everything handed out before. */
  lemma InitRebinds(a: EarlyAllocator, start: nat, size: nat, start': nat, size': nat)
    requires a.Valid()
    requires start + size <= UsizeMax && start' + size' <= UsizeMax
    ensures Init(Init(a, start, size), start', size') == Init(a, start', size')
  {
  }
}

=== FILE: skeleton.dfy ===
/**
  The allocator's bodies as they are written today, next to the behaviour the
  layout comment describes. Each `Written*` member models one body verbatim;
  each lemma names an input on which it breaks a guarantee that the
  `BumpAllocator` version keeps.
 */
module Skeleton {
  import opened AllocResult
  import opened BumpAllocator

  /**
    `alloc` as written: it always succeeds with the dangling pointer for `u8`,
    whose address is the alignment of `u8`, that is 1; no cursor moves.
   */
  function WrittenAlloc(a: EarlyAllocator, l: Layout): (r: Step<nat>)
    ensures r.result.Ok? && r.result.value == 1 && r.next == a
  {
    Step(Ok(1), a)
  }

  /** `alloc_pages` as written: it always succeeds with address 0; no cursor moves. */
  function WrittenAllocPages(a: EarlyAllocator, numPages: nat, alignPow2: nat): (r: Step<nat>)
    ensures r.result.Ok? && r.result.value == 0 && r.next == a
  {
    Step(Ok(0), a)
  }

  /** `used_bytes` as written: zero whatever has been handed out. */
  function WrittenUsedBytes(a: EarlyAllocator): (r: nat)
    ensures r == 0
  {
    0
  }

  /** The state after `init(0x1000, 0x3000)` with 4 KiB pages. */
  function Booted(): (a: EarlyAllocator)
    ensures a.Valid() && a.Empty()
  {
    Init(New(0x1000), 0x1000, 0x3000)
  }

  /**
    The written `alloc` hands out an address outside the span that is not
    8-byte aligned, and hands it out again on the next call, so two live
    allocations overlap. The modelled `Alloc` places the request at `start`.
   */
  lemma WrittenAllocOverlaps()
    ensures WrittenAlloc(Booted(), Layout(64, 8)).result == Ok(1)
    ensures 1 % 8 != 0 && 1 < Booted().start
    ensures !ByteSlot(Booted(), Layout(64, 8), 1)
    ensures WrittenAlloc(WrittenAlloc(Booted(), Layout(64, 8)).next, Layout(64, 8)).result == Ok(1)
    ensures Alloc(Booted(), Layout(64, 8)).result == Ok(0x1000)
  {
  }

  /**
    The written `alloc_pages` hands out address 0, below the byte cursor and
    outside the span. The modelled `AllocPages` takes the top page.
   */
  lemma WrittenAllocPagesEscapes()
    ensures WrittenAllocPages(Booted(), 1, 0x1000).result == Ok(0)
    ensures !PageSlot(Booted(), 1, 0x1000, 0)
    ensures AllocPages(Booted(), 1, 0x1000).result == Ok(0x3000)
  {
  }

  /** After a 64-byte request the written `used_bytes` still reports zero. */
  lemma WrittenUsedBytesStale()
    ensures var s := Alloc(Booted(), Layout(64, 8));
            && s.result.Ok?
            && WrittenUsedBytes(s.next) == 0
            && UsedBytes(s.next) == 64
  {
  }
}
